=== FILE: README.md ===
# Curated-roll reader, modelled in Dafny

The curated-roll reader turns a text feed of banshee-44 recommendation URLs,
one per line, into curated rolls:

- `toCuratedRoll` reads one line. It looks for the pattern
  `https://banshee-44.com/?weapon=(\d.+)&socketEntries=(.*)` anywhere in the
  line. Capture 1 is coerced with unary `+` into the roll's `itemHash`.
  Capture 2 is split on `,` and every piece is coerced into
  `recommendedPerks`. An empty line, or one without a match, gives `null`.
- `toCuratedRolls` splits the whole text on `\n`, reads every line and drops
  the `null`s.

The model is pure functions over `seq<char>`, in five modules:

| file | module | what it holds |
|---|---|---|
| `wrappers.dfy` | `Wrappers` | `Option`, for `null` |
| `js_strings.dfy` | `JsStrings` | line terminators, `String.prototype.split` with a one-character separator, its inverse `Join` |
| `js_numbers.dfy` | `JsNumbers` | unary `+` on a string (the ToNumber abstract operation), as far as the reader needs it |
| `banshee_pattern.dfy` | `BansheePattern` | the regular expression: a declarative reading (`MatchesAt`, `IsChosenMatch`) and a search (`Match`) proved to agree with it |
| `curated_roll_reader.dfy` | `CuratedRollReader` | `ToCuratedRoll`, `ToCuratedRolls` and their properties |

How the regular expression is read:

- `MatchesAt(s, p, e)` says the pattern can match from index `p`, with capture 1
  ending at index `e`.
- The pattern has no `g` flag, so `match` reports one match: the leftmost start.
  At that start, the greedy `.+` backtracks from the longest candidate, so
  capture 1 ends at the last separator the line can reach.
- `.` never crosses a line terminator (`\n`, `\r`, U+2028, U+2029).
  Capture 2 therefore runs to the first line terminator, which matters for a
  feed with CRLF line ends: it is split on `\n` only, so each line keeps its `\r`.
- `IsChosenMatch` states this choice. `Match` is proved to return exactly the
  groups of the chosen match.

How numbers are read: `Num` is `Finite(value)`, `NaN`, or `Unmodelled(text)`.

- Blank text (empty or white space only) gives `Finite(0)`.
- A string of decimal digits no larger than `Number.MAX_SAFE_INTEGER`
  (2^53 - 1) gives its value.
- Text whose first character is neither white space nor a possible start of
  a numeric literal gives `NaN`.
- Everything else (signs, fractions, exponents, hexadecimal, `Infinity`,
  surrounding white space, digits past 2^53) is `Unmodelled`. Its JavaScript
  value is not guessed.
- Because `Unmodelled` carries its text, two `Num` values that differ in the
  model may be the same JavaScript number when either is `Unmodelled`:
  `" 5"` and `"5.0"` both coerce to 5 in JavaScript.

Two consequences of the code that a digits-and-commas reading of the URL
would not suggest:

- **One-digit item hashes are refused when no further `&socketEntries=`
  follows on the line.** The `\d.+` needs two characters before
  `&socketEntries=`, so `https://banshee-44.com/?weapon=1&socketEntries=2,3`
  gives no roll. `ExampleFeed` proves that
  `https://banshee-44.com/?weapon=1&socketEntries=2,3`, an empty line,
  `bad-line` and `https://banshee-44.com/?weapon=4&socketEntries=5`, joined by
  newlines, give no roll at all. With a second separator later on the line,
  capture 1 swallows the first one (`GreedyCapture`): for
  `https://banshee-44.com/?weapon=1&socketEntries=2&socketEntries=3`, capture 1
  is `1&socketEntries=2` and capture 2 is `3`, so a roll does come out.
- **The pattern is looser than digits and commas.** Capture 1 is any run of
  two or more non-terminator characters starting with a digit. Capture 2 is
  anything up to the line's end, and a non-numeric perk becomes a non-finite
  number instead of rejecting the line.

## Model

| member | source | states |
|---|---|---|
| JsStrings.Split | src/app/curated-rolls/curatedRollReader.ts:17 | `split` with a one-character separator gives one piece more than the separator occurs, and no piece contains the separator |
| JsStrings.JoinSplit | src/app/curated-rolls/curatedRollReader.ts:17 | joining the pieces of a split with the separator restores the string: splitting loses nothing but the separators |
| JsStrings.SplitJoin | src/app/curated-rolls/curatedRollReader.ts:17 | splitting the join of at least one separator-free piece gives those pieces back, in order |
| JsStrings.SplitConcat | src/app/curated-rolls/curatedRollReader.ts:26 | splitting `a + sep + b` gives the pieces of `a` followed by the pieces of `b` |
| JsStrings.SplitWithoutSeparator | src/app/curated-rolls/curatedRollReader.ts:26 | a string without the separator, the empty string included, splits into itself alone |
| JsStrings.SplitOnlySeparators | src/app/curated-rolls/curatedRollReader.ts:26 | a string made only of separators splits into empty pieces only |
| JsNumbers.DecimalString | src/app/curated-rolls/curatedRollReader.ts:16 | a reference inverse of the coercion at line 16, not a model of that line: the decimal rendering of `n` is a non-empty digit string whose value is `n`, with two or more digits exactly when `n >= 10` (used by `DecimalToNumber` and `FormatRoundTrip`) |
| JsNumbers.ToNumber | src/app/curated-rolls/curatedRollReader.ts:16-17 | unary `+` on a string: blank text gives 0; a `Finite` result of the model is a safe non-negative integer (other numerals, such as `-5` or `1.5`, are `Unmodelled`); NaN comes only from non-empty text whose first character cannot begin a number |
| JsNumbers.DigitsToNumber | src/app/curated-rolls/curatedRollReader.ts:16-17 | unary `+` on a digit string within 2^53 - 1 is its decimal value, and on the empty string it is 0 |
| JsNumbers.DecimalToNumber | src/app/curated-rolls/curatedRollReader.ts:16-17 | coercing the decimal rendering of a safe integer gives that integer back |
| JsNumbers.NonNumericToNaN | src/app/curated-rolls/curatedRollReader.ts:17 | a token whose first character cannot begin a number coerces to NaN |
| BansheePattern.MatchesAt | src/app/curated-rolls/curatedRollReader.ts:9 | the pattern can match from `p` with capture 1 ending at `e`: the prefix literal at `p`, a digit, at least one more non-terminator character, then the separator literal at `e` (a predicate: its definition is the statement) |
| BansheePattern.IsChosenMatch | src/app/curated-rolls/curatedRollReader.ts:8-10 | the match `match` reports: a match at `(p, e)` with no match starting earlier and none at `p` ending later (a predicate: its definition is the statement) |
| BansheePattern.Groups | src/app/curated-rolls/curatedRollReader.ts:8-10 | the array `match` returns for a match has three entries: the whole match, capture 1, capture 2 |
| BansheePattern.GroupsWhole | src/app/curated-rolls/curatedRollReader.ts:9 | the whole match is the prefix text, capture 1, the separator text and capture 2 in a row, and capture 2 holds no line terminator |
| BansheePattern.LineEnd | src/app/curated-rolls/curatedRollReader.ts:9 | where `(.*)` stops: the run from `i` holds no line terminator and is followed by one or by the end of the text |
| BansheePattern.LineEndIs | src/app/curated-rolls/curatedRollReader.ts:9 | those two conditions determine the end of the run uniquely |
| BansheePattern.WithinRun | src/app/curated-rolls/curatedRollReader.ts:9 | `.*` from `q` can stop at `e` exactly when `e` is not past the end of the run |
| BansheePattern.LastSeparator | src/app/curated-rolls/curatedRollReader.ts:9 | the greatest position in a range where `&socketEntries=` occurs, or none when it occurs nowhere in the range |
| BansheePattern.GreedyEnd | src/app/curated-rolls/curatedRollReader.ts:9 | at a start `p`, the greatest end of capture 1 the pattern allows, and none exactly when no end works |
| BansheePattern.FirstMatch | src/app/curated-rolls/curatedRollReader.ts:8-10 | the least start at or after `from` where the pattern matches, with the greatest end there; none when no start matches |
| BansheePattern.Match | src/app/curated-rolls/curatedRollReader.ts:8-10 | `match` gives null exactly when the pattern matches nowhere; otherwise three entries, the groups of the leftmost-then-longest match |
| BansheePattern.MatchChosen | src/app/curated-rolls/curatedRollReader.ts:8-10 | a successful match has a chosen match whose groups it returns |
| BansheePattern.MatchNone | src/app/curated-rolls/curatedRollReader.ts:8-12 | with no match anywhere, `match` gives null |
| BansheePattern.ChosenMatchUnique | src/app/curated-rolls/curatedRollReader.ts:8-10 | at most one (start, end) pair is the chosen match |
| BansheePattern.MatchIs | src/app/curated-rolls/curatedRollReader.ts:8-10 | the result of `match` is determined by the chosen match: its groups |
| BansheePattern.WellFormedMatch | src/app/curated-rolls/curatedRollReader.ts:9 | a well-formed URL line (two or more hash characters starting with a digit, perk text without `&` or a line terminator) matches with capture 1 the hash and capture 2 the perk text; a line terminator and what follows it are not captured |
| BansheePattern.GreedyCapture | src/app/curated-rolls/curatedRollReader.ts:9 | with two separators on a line, capture 1 is greedy: it runs to the second one and swallows the first |
| BansheePattern.SingleDigitRejected | src/app/curated-rolls/curatedRollReader.ts:9 | a URL whose hash is a single digit does not match when no `&` follows the separator (`\d.+` needs two characters); with a further `&socketEntries=` later on the line, capture 1 swallows the first one instead (`GreedyCapture`) |
| BansheePattern.LeadingTextIgnored | src/app/curated-rolls/curatedRollReader.ts:8-10 | the pattern is unanchored: text in front of the line that cannot start a match (no `h`) changes nothing |
| BansheePattern.ShiftedMatch | src/app/curated-rolls/curatedRollReader.ts:8-10 | the chosen match of a line, behind text without `h`, gives the same groups |
| BansheePattern.ChosenShift | src/app/curated-rolls/curatedRollReader.ts:8-10 | behind text without `h` the chosen match moves right and stays the chosen one |
| BansheePattern.ShiftMatches | src/app/curated-rolls/curatedRollReader.ts:9 | the pattern matches at `(p, e)` in a line exactly when it matches at the shifted positions once text is put in front |
| BansheePattern.MatchesComeFromLine | src/app/curated-rolls/curatedRollReader.ts:9 | every match behind text without `h` is a shifted match of the line itself |
| BansheePattern.ShiftLineEnd | src/app/curated-rolls/curatedRollReader.ts:9 | the end of capture 2 moves with the text |
| BansheePattern.ShiftGroups | src/app/curated-rolls/curatedRollReader.ts:8-10 | the three groups of a match are unchanged when text is put in front |
| CuratedRollReader.ToCuratedRoll | src/app/curated-rolls/curatedRollReader.ts:3-23 | an empty line gives null; a roll comes out exactly when the pattern matches somewhere in the line; then its hash is capture 1 of the chosen match coerced, and its perks are capture 2 split on `,` and coerced, one more than capture 2 has commas (so the `length !== 3` refusal never fires) |
| CuratedRollReader.CoerceAll | src/app/curated-rolls/curatedRollReader.ts:17 | `.map((s) => +s)`: one number per token, the i-th being the coercion of the i-th token |
| CuratedRollReader.ParseWellFormedLine | src/app/curated-rolls/curatedRollReader.ts:8-17 | a well-formed line gives the roll with hash `+h` and perks `+token` for each comma-separated token in order; a decimal hash is its value and an empty token is 0 |
| CuratedRollReader.WellFormedRoll | src/app/curated-rolls/curatedRollReader.ts:3-23 | the roll of a well-formed URL line is built from exactly its hash text and its perk text |
| CuratedRollReader.ParseEach | src/app/curated-rolls/curatedRollReader.ts:28 | `.map(toCuratedRoll)`: one result per line, the i-th being the reading of the i-th line |
| CuratedRollReader.Present | src/app/curated-rolls/curatedRollReader.ts:28 | `filter((cr) => cr !== null)` keeps no more entries than it is given |
| CuratedRollReader.SomeIndices | src/app/curated-rolls/curatedRollReader.ts:28 | the positions holding a value: each holds one, every one is listed, in increasing order |
| CuratedRollReader.PresentInOrder | src/app/curated-rolls/curatedRollReader.ts:28 | the filter keeps exactly the values present, in their order: the k-th kept value sits at the k-th position holding a value |
| CuratedRollReader.PresentConcat | src/app/curated-rolls/curatedRollReader.ts:28 | filtering distributes over concatenation |
| CuratedRollReader.PresentOfNothing | src/app/curated-rolls/curatedRollReader.ts:28 | filtering an all-null sequence gives the empty sequence |
| CuratedRollReader.ParseEachConcat | src/app/curated-rolls/curatedRollReader.ts:28 | `map(toCuratedRoll)` distributes over concatenation |
| CuratedRollReader.ToCuratedRolls | src/app/curated-rolls/curatedRollReader.ts:25-29 | the feed gives at most one roll per line, so no more rolls than newlines plus one |
| CuratedRollReader.RollsInLineOrder | src/app/curated-rolls/curatedRollReader.ts:25-29 | the rolls are the rolls of the lines that parse, in line order, with none skipped and none repeated |
| CuratedRollReader.RollsConcat | src/app/curated-rolls/curatedRollReader.ts:25-29 | two feeds joined by a newline give the rolls of the first followed by the rolls of the second |
| CuratedRollReader.RollsOfBlankFeed | src/app/curated-rolls/curatedRollReader.ts:25-29 | an empty feed, or one of newlines only, gives no rolls |
| CuratedRollReader.RollsOfOneLine | src/app/curated-rolls/curatedRollReader.ts:25-29 | a feed without a newline gives the roll of its single line, or nothing |
| CuratedRollReader.FormattedPerks | src/app/curated-rolls/curatedRollReader.ts:17 | comma-joined decimal perks hold no `&` and no line terminator, and split back into the decimal strings |
| CuratedRollReader.CoerceDecimals | src/app/curated-rolls/curatedRollReader.ts:17 | coercing decimal renderings of safe integers gives those integers back |
| CuratedRollReader.FormatRoundTrip | src/app/curated-rolls/curatedRollReader.ts:3-23 | a roll written as a URL line, with a hash of two or more digits and safe integers throughout, reads back as that hash and those perks in order |
| CuratedRollReader.FormatSingleDigitRejected | src/app/curated-rolls/curatedRollReader.ts:9 | a roll with a one-digit hash, written as a URL line (only digits and commas after the separator, so no further separator), is refused |
| CuratedRollReader.ExampleLine | src/app/curated-rolls/curatedRollReader.ts:3-23 | `...?weapon=1234&socketEntries=10,20,30` reads as hash 1234 with perks 10, 20, 30 |
| CuratedRollReader.ExampleFeed | src/app/curated-rolls/curatedRollReader.ts:25-29 | the four-line feed with one-digit hashes, an empty line and `bad-line` gives no rolls |
| CuratedRollReader.SingleDigitLineHasNoRoll | src/app/curated-rolls/curatedRollReader.ts:9 | a one-digit-hash URL line with no `&` after the separator, as a feed of its own, gives no roll; with a further `&socketEntries=` later on the line it can give one (`GreedyCapture`) |
| CuratedRollReader.ShortLineHasNoRoll | src/app/curated-rolls/curatedRollReader.ts:8-14 | a line too short to hold both literals and a two-character hash gives no roll |

## Left out

- `src/app/loadout/loadout-edit/LoadoutEditBucket.tsx`: a React component that renders loadouts. It is user interface, not part of the reader.
- `./curatedRoll`, the module that declares the `CuratedRoll` record type, is not part of this model. The record is modelled by the `CuratedRoll` datatype, with the same two fields.
- `toCuratedRoll` also returns null for a `null` or `undefined` argument (`!bansheeTextLine`). Dafny strings cannot be null, so only the empty-string case is modelled.
- JsNumbers.ToNumber: gives `Unmodelled` instead of a number for every input outside blank text, safe decimal digit strings and text that cannot begin a numeric literal. Examples are signs, fractions, exponents, hexadecimal, `Infinity`, surrounding white space and digit strings above 2^53 - 1, which JavaScript rounds to the nearest double. Floating point is not modelled.
- Characters are Unicode scalar values, while JavaScript strings are UTF-16 code units. For this pattern the two agree on whether a line matches, but indices and lengths count differently around characters outside the Basic Multilingual Plane.
- The `length !== 3` check at line 12 is modelled as written. It is proved unreachable (`Match` always returns three entries), so no separate member exists for it.

=== FILE: banshee_pattern.dfy ===
/**
 * The one regular expression of the curated-roll reader,
 *   https://banshee-44\.com/\?weapon=(\d.+)&socketEntries=(.*)
 * with no flags, as `String.prototype.match` runs it: the first match found
 * from the left, and at that start the backtracking order of a greedy `.+`.
 *
 * `MatchesAt(s, p, e)` says the pattern can match from index `p` with capture 1
 * ending at index `e`; `IsChosenMatch` picks the one the engine reports (the
 * least start, then the greatest end). `Match` finds it by search, and its
 * contract ties the search to that declarative reading.
 */
module BansheePattern {
  import opened Wrappers
  import opened JsStrings
  import opened JsNumbers

  /** The literal text before capture 1. */
  const Prefix: String := "https://banshee-44.com/?weapon="

  /** The literal text between capture 1 and capture 2. */
  const Separator: String := "&socketEntries="

  predicate SeparatorAt(s: String, e: nat) {
    e + |Separator| <= |s| && s[e..e + |Separator|] == Separator
  }

  /**
   * The pattern matches from `p`, with capture 1 being `s[p + |Prefix|..e]`:
   * the prefix literal, a digit, at least one more character other than a line
   * terminator (`\d.+`), then the separator literal. Capture 2, `(.*)`, can
   * always match (the empty string at worst), so it adds no condition.
   */
  predicate MatchesAt(s: String, p: nat, e: nat) {
    var q := p + |Prefix|;
    q + 2 <= e && SeparatorAt(s, e)
    && s[p..q] == Prefix && IsDigit(s[q]) && NoLineTerminator(s[q..e])
  }

  /** The match `match` reports: leftmost start, and at that start the longest capture 1. */
  ghost predicate IsChosenMatch(s: String, p: nat, e: nat) {
    MatchesAt(s, p, e)
    && forall p': nat, e': nat :: MatchesAt(s, p', e') ==> p < p' || (p == p' && e' <= e)
  }

  /** Where the run of non-terminator characters starting at `i` ends. */
  function LineEnd(s: String, i: nat): (j: nat)
    requires i <= |s|
    ensures i <= j <= |s|
    ensures NoLineTerminator(s[i..j])
    ensures j < |s| ==> IsLineTerminator(s[j])
    decreases |s| - i
  {
    if i == |s| || IsLineTerminator(s[i]) then i
    else
      var j := LineEnd(s, i + 1);
      assert s[i..j] == [s[i]] + s[i + 1..j];
      j
  }

  /** The two conditions of LineEnd's contract determine it. */
  lemma LineEndIs(s: String, i: nat, j: nat)
    requires i <= j <= |s|
    requires NoLineTerminator(s[i..j])
    requires j == |s| || IsLineTerminator(s[j])
    ensures LineEnd(s, i) == j
  {
    WithinRun(s, i);
    if j < |s| {
      assert s[i..j + 1][j - i] == s[j];
      assert !NoLineTerminator(s[i..j + 1]);
    }
  }

  /** `.*` from `q` can reach `e` exactly when `e` is not past the end of the run. */
  lemma WithinRun(s: String, q: nat)
    requires q <= |s|
    ensures forall e: nat :: q <= e <= |s| ==> (NoLineTerminator(s[q..e]) <==> e <= LineEnd(s, q))
  {
    var j := LineEnd(s, q);
    forall e: nat | q <= e <= |s|
      ensures NoLineTerminator(s[q..e]) <==> e <= j
    {
      if e <= j {
        assert forall k :: 0 <= k < e - q ==> s[q..e][k] == s[q..j][k];
      } else {
        assert s[q..e][j - q] == s[j];
      }
    }
  }

  /** The greatest index in `lo..hi` (inclusive) where the separator occurs. */
  function LastSeparator(s: String, lo: nat, hi: nat): (r: Option<nat>)
    ensures r.Some? ==> lo <= r.value <= hi && SeparatorAt(s, r.value)
    ensures r.Some? ==> forall e: nat :: r.value < e <= hi ==> !SeparatorAt(s, e)
    ensures r.None? ==> forall e: nat :: lo <= e <= hi ==> !SeparatorAt(s, e)
    decreases hi
  {
    if hi < lo then None
    else if SeparatorAt(s, hi) then Some(hi)
    else if hi == lo then None
    else LastSeparator(s, lo, hi - 1)
  }

  /** The end of capture 1 for a match starting at `p`: greedy, so the last one that works. */
  function GreedyEnd(s: String, p: nat): (r: Option<nat>)
    ensures r.Some? ==> MatchesAt(s, p, r.value)
    ensures forall e: nat :: MatchesAt(s, p, e) ==> r.Some? && e <= r.value
  {
    var q := p + |Prefix|;
    if q < |s| && s[p..q] == Prefix && IsDigit(s[q]) then
      WithinRun(s, q);
      LastSeparator(s, q + 2, LineEnd(s, q))
    else
      None
  }

  /** The first start at or after `from` where the pattern matches, with its greedy end. */
  function FirstMatch(s: String, from: nat): (r: Option<(nat, nat)>)
    ensures r.Some? ==> from <= r.value.0 && MatchesAt(s, r.value.0, r.value.1)
    ensures r.Some? ==> forall p: nat, e: nat :: from <= p && MatchesAt(s, p, e) ==>
      r.value.0 < p || (r.value.0 == p && e <= r.value.1)
    ensures r.None? ==> forall p: nat, e: nat :: from <= p ==> !MatchesAt(s, p, e)
    decreases |s| - from
  {
    if |s| <= from then None
    else
      match GreedyEnd(s, from)
      case Some(e) => Some((from, e))
      case None => FirstMatch(s, from + 1)
  }

  /**
   * The array `match` returns for the match at `(p, e)`: the whole match,
   * capture 1 and capture 2.
   */
  function Groups(s: String, p: nat, e: nat): (g: seq<String>)
    requires p + |Prefix| <= e && e + |Separator| <= |s|
    ensures |g| == 3
  {
    var f := LineEnd(s, e + |Separator|);
    [s[p..f], s[p + |Prefix|..e], s[e + |Separator|..f]]
  }

  /**
   * The whole match is the text before capture 1, capture 1, the separator
   * text and capture 2, one after the other; capture 2 holds no line
   * terminator.
   */
  lemma GroupsWhole(s: String, p: nat, e: nat)
    requires p + |Prefix| <= e && e + |Separator| <= |s|
    ensures var g := Groups(s, p, e);
      && g[0] == s[p..p + |Prefix|] + g[1] + s[e..e + |Separator|] + g[2]
      && NoLineTerminator(g[2])
  {
    var f := LineEnd(s, e + |Separator|);
    var q, b := p + |Prefix|, e + |Separator|;
    assert s[p..f] == s[p..q] + s[q..e] + s[e..b] + s[b..f];
  }

  /**
   * `s.match(pattern)`: null exactly when the pattern matches nowhere in `s`;
   * otherwise always three entries, the groups of the chosen match.
   */
  function Match(s: String): (r: Option<seq<String>>)
    ensures r.Some? <==> exists p: nat, e: nat :: MatchesAt(s, p, e)
    ensures r.Some? ==> |r.value| == 3
    ensures r.Some? ==> exists p: nat, e: nat :: IsChosenMatch(s, p, e) && r.value == Groups(s, p, e)
  {
    match FirstMatch(s, 0)
    case None => None
    case Some((p, e)) =>
      assert IsChosenMatch(s, p, e);
      Some(Groups(s, p, e))
  }

  /** When Match finds something, the search's answer is the chosen match. */
  lemma MatchChosen(s: String) returns (p: nat, e: nat)
    requires Match(s).Some?
    ensures IsChosenMatch(s, p, e)
    ensures Match(s) == Some(Groups(s, p, e))
  {
    p, e := FirstMatch(s, 0).value.0, FirstMatch(s, 0).value.1;
  }

  /** Without any match, Match gives null. */
  lemma MatchNone(s: String)
    requires forall p: nat, e: nat :: !MatchesAt(s, p, e)
    ensures Match(s) == None
  {
  }

  /** At most one match is the chosen one. */
  lemma ChosenMatchUnique(s: String, p: nat, e: nat, p': nat, e': nat)
    requires IsChosenMatch(s, p, e) && IsChosenMatch(s, p', e')
    ensures p == p' && e == e'
  {
  }

  /** The result of Match, given its chosen match. */
  lemma MatchIs(s: String, p: nat, e: nat)
    requires IsChosenMatch(s, p, e)
    ensures Match(s) == Some(Groups(s, p, e))
  {
    var p', e' := MatchChosen(s);
    ChosenMatchUnique(s, p, e, p', e');
  }

  /** The separator literal holds `&` only at its start, and no line terminator. */
  lemma SeparatorShape()
    ensures Separator[0] == '&'
    ensures forall k :: 1 <= k < |Separator| ==> Separator[k] != '&'
    ensures NoLineTerminator(Separator)
  {
  }

  /**
   * With no `&` after the separator that follows capture 1, and the line
   * ending (or a line terminator) after capture 2, no later separator can
   * serve as the end of capture 1.
   */
  lemma NoLaterSeparator(h: String, t: String, rest: String, e': nat)
    requires NoLineTerminator(t) && '&' !in t
    requires rest == [] || IsLineTerminator(rest[0])
    requires |Prefix| + |h| < e'
    ensures !SeparatorAt(Prefix + h + Separator + t + rest, e')
         || !NoLineTerminator((Prefix + h + Separator + t + rest)[|Prefix|..e'])
  {
    var s := Prefix + h + Separator + t + rest;
    var e := |Prefix| + |h|;
    var f := e + |Separator| + |t|;
    SeparatorShape();
    if e' + |Separator| <= |s| {
      assert s[e'..e' + |Separator|][0] == s[e'];
      if e' < e + |Separator| {
        assert s[e'] == Separator[e' - e] != '&';
      } else if e' < f {
        assert s[e'] == t[e' - e - |Separator|] != '&';
      } else {
        assert s[f] == rest[0];
        if e' == f {
          assert s[e'] != '&';
        } else {
          assert s[|Prefix|..e'][f - |Prefix|] == s[f];
        }
      }
    }
  }

  /**
   * A line made of the prefix, a capture 1 of two or more non-terminator
   * characters starting with a digit, the separator, and perk text free of
   * `&` and of line terminators, optionally followed by a line terminator and
   * anything else, matches with exactly those two captures.
   */
  lemma {:induction false} WellFormedMatch(h: String, t: String, rest: String)
    requires |h| >= 2 && IsDigit(h[0]) && NoLineTerminator(h)
    requires NoLineTerminator(t) && '&' !in t
    requires rest == [] || IsLineTerminator(rest[0])
    ensures Match(Prefix + h + Separator + t + rest) == Some([Prefix + h + Separator + t, h, t])
  {
    var s := Prefix + h + Separator + t + rest;
    var e := |Prefix| + |h|;
    var f := e + |Separator| + |t|;
    WellFormedChosen(s, h, t, rest);
    assert s[0..f] == Prefix + h + Separator + t;
    assert s[|Prefix|..e] == h;
    assert s[e + |Separator|..f] == t;
    if rest != [] {
      assert s[f] == rest[0];
    }
    LineEndIs(s, e + |Separator|, f);
    MatchIs(s, 0, e);
  }

  /** In a well-formed line the match at the start, up to the one separator, is the chosen one. */
  lemma WellFormedChosen(s: String, h: String, t: String, rest: String)
    requires |h| >= 2 && IsDigit(h[0]) && NoLineTerminator(h)
    requires NoLineTerminator(t) && '&' !in t
    requires rest == [] || IsLineTerminator(rest[0])
    requires s == Prefix + h + Separator + t + rest
    ensures IsChosenMatch(s, 0, |Prefix| + |h|)
  {
    var q := |Prefix|;
    var e := q + |h|;
    assert s[0..q] == Prefix;
    assert s[q..e] == h;
    assert s[e..e + |Separator|] == Separator;
    assert MatchesAt(s, 0, e);
    forall p': nat, e': nat | MatchesAt(s, p', e')
      ensures 0 < p' || e' <= e
    {
      if p' == 0 && e' > e {
        NoLaterSeparator(h, t, rest, e');
      }
    }
  }

  /**
   * Capture 1 is greedy: with two separators on the line it runs to the
   * second, swallowing the first separator and whatever follows it.
   */
  lemma GreedyCapture(h: String, a: String, t: String, rest: String)
    requires |h| >= 1 && IsDigit(h[0]) && NoLineTerminator(h) && NoLineTerminator(a)
    requires NoLineTerminator(t) && '&' !in t
    requires rest == [] || IsLineTerminator(rest[0])
    ensures Match(Prefix + h + Separator + a + Separator + t + rest)
         == Some([Prefix + h + Separator + a + Separator + t, h + Separator + a, t])
  {
    var h' := h + Separator + a;
    SeparatorShape();
    assert NoLineTerminator(h') by {
      forall i | 0 <= i < |h'| ensures !IsLineTerminator(h'[i]) {
        if i < |h| {
          assert h'[i] == h[i];
        } else if i < |h| + |Separator| {
          assert h'[i] == Separator[i - |h|];
        } else {
          assert h'[i] == a[i - |h| - |Separator|];
        }
      }
    }
    var line := Prefix + h + Separator + a + Separator + t + rest;
    var whole := Prefix + h + Separator + a + Separator + t;
    RegroupCapture(Prefix, h, Separator, a, t, rest);
    RegroupCapture(Prefix, h, Separator, a, t, []);
    assert line == Prefix + h' + Separator + t + rest;
    assert whole == Prefix + h' + Separator + t;
    WellFormedMatch(h', t, rest);
    assert Match(line) == Some([whole, h', t]);
  }

  /** Capture 1 of GreedyCapture, read as one piece of its line; kept as a lemma only to keep GreedyCapture's proof cheap. */
  lemma RegroupCapture(x: String, h: String, y: String, a: String, t: String, rest: String)
    ensures x + h + y + a + y + t + rest == x + (h + y + a) + y + t + rest
    ensures x + h + y + a + y + t == x + (h + y + a) + y + t
  {
  }

  /**
   * A one-digit weapon hash is refused: `\d.+` needs two characters before the
   * separator, and with no `&` after it there is no later separator to reach.
   */
  lemma SingleDigitRejected(d: char, t: String)
    requires IsDigit(d) && '&' !in t
    ensures Match(Prefix + [d] + Separator + t) == None
  {
    var s := Prefix + [d] + Separator + t;
    forall p: nat, e: nat
      ensures !MatchesAt(s, p, e)
    {
      if |Prefix| + 1 < e {
        NoSeparatorAfterDigit(s, d, t, e);
      }
    }
  }

  /** In SingleDigitRejected's text the separator starts nowhere past the digit. */
  lemma NoSeparatorAfterDigit(s: String, d: char, t: String, e: nat)
    requires '&' !in t && s == Prefix + [d] + Separator + t
    requires |Prefix| + 1 < e
    ensures !SeparatorAt(s, e)
  {
    var e0 := |Prefix| + 1;
    SeparatorShape();
    if e + |Separator| <= |s| {
      assert s[e..e + |Separator|][0] == s[e];
      if e < e0 + |Separator| {
        assert s[e] == Separator[e - e0] != '&';
      } else {
        assert s[e] == t[e - e0 - |Separator|] != '&';
      }
    }
  }

  /** Moving a line right by `|junk|` characters moves its matches with it. */
  lemma ShiftMatches(junk: String, line: String, p: nat, e: nat)
    ensures MatchesAt(line, p, e) <==> MatchesAt(junk + line, p + |junk|, e + |junk|)
  {
    var s, k, q := junk + line, |junk|, p + |Prefix|;
    if q + 2 <= e && e + |Separator| <= |line| {
      assert s[p + k..q + k] == line[p..q];
      assert s[q + k] == line[q];
      assert s[q + k..e + k] == line[q..e];
      assert s[e + k..e + k + |Separator|] == line[e..e + |Separator|];
    }
  }

  /** A match starts with `h`, so none starts inside text that has no `h`. */
  lemma NoMatchInJunk(junk: String, line: String, p: nat, e: nat)
    requires 'h' !in junk && p < |junk|
    ensures !MatchesAt(junk + line, p, e)
  {
    var s := junk + line;
    if p + |Prefix| <= |s| {
      assert s[p..p + |Prefix|][0] == s[p] == junk[p] != Prefix[0];
    }
  }

  /** A slice of `line` is the same slice of `junk + line`, moved right by `|junk|`. */
  lemma ShiftSlice(junk: String, line: String, i: nat, j: nat)
    requires i <= j <= |line|
    ensures (junk + line)[i + |junk|..j + |junk|] == line[i..j]
  {
  }

  /** LineEnd moves with the text. */
  lemma ShiftLineEnd(junk: String, line: String, i: nat)
    requires i <= |line|
    ensures LineEnd(junk + line, i + |junk|) == LineEnd(line, i) + |junk|
  {
    var s, k, j := junk + line, |junk|, LineEnd(line, i);
    ShiftSlice(junk, line, i, j);
    if j < |line| {
      assert s[j + k] == line[j];
    }
    LineEndIs(s, i + k, j + k);
  }

  /** The groups of a match move with the text, unchanged. */
  lemma ShiftGroups(junk: String, line: String, p: nat, e: nat)
    requires p + |Prefix| <= e && e + |Separator| <= |line|
    ensures Groups(junk + line, p + |junk|, e + |junk|) == Groups(line, p, e)
  {
    ShiftLineEnd(junk, line, e + |Separator|);
    var f := LineEnd(line, e + |Separator|);
    ShiftSlice(junk, line, p, f);
    ShiftSlice(junk, line, p + |Prefix|, e);
    ShiftSlice(junk, line, e + |Separator|, f);
  }

  /** Every match in `junk + line` is a match of `line`, moved right. */
  lemma MatchesComeFromLine(junk: String, line: String)
    requires 'h' !in junk
    ensures forall p: nat, e: nat :: MatchesAt(junk + line, p, e) ==>
      |junk| <= p && |junk| <= e && MatchesAt(line, p - |junk|, e - |junk|)
  {
    var k := |junk|;
    forall p: nat, e: nat | MatchesAt(junk + line, p, e)
      ensures k <= p && k <= e && MatchesAt(line, p - k, e - k)
    {
      if p < k {
        NoMatchInJunk(junk, line, p, e);
      }
      ShiftMatches(junk, line, p - k, e - k);
    }
  }

  /**
   * The search is unanchored: text in front of the URL is skipped, so long as
   * no match can start inside it (it has no `h`, the first letter of `https`).
   */
  lemma {:induction false} LeadingTextIgnored(junk: String, line: String)
    requires 'h' !in junk
    ensures Match(junk + line) == Match(line)
  {
    if Match(line).Some? {
      LeadingTextKeepsMatch(junk, line);
    } else {
      LeadingTextAddsNoMatch(junk, line);
    }
  }

  /** LeadingTextIgnored when `line` has a match: it is found again, moved right. */
  lemma LeadingTextKeepsMatch(junk: String, line: String)
    requires 'h' !in junk
    requires Match(line).Some?
    ensures Match(junk + line) == Match(line)
  {
    var p, e := MatchChosen(line);
    ShiftedMatch(junk, line, p, e);
  }

  /** The chosen match of `line`, moved right, is what Match finds in `junk + line`. */
  lemma ShiftedMatch(junk: String, line: String, p: nat, e: nat)
    requires 'h' !in junk
    requires IsChosenMatch(line, p, e)
    ensures Match(junk + line) == Some(Groups(line, p, e))
  {
    ChosenShift(junk, line, p, e);
    MatchIs(junk + line, p + |junk|, e + |junk|);
    ShiftGroups(junk, line, p, e);
  }

  /** LeadingTextIgnored when `line` has no match: the text in front adds none. */
  lemma LeadingTextAddsNoMatch(junk: String, line: String)
    requires 'h' !in junk
    requires forall p: nat, e: nat :: !MatchesAt(line, p, e)
    ensures Match(junk + line) == None
  {
    var k := |junk|;
    forall p: nat, e: nat
      ensures !MatchesAt(junk + line, p, e)
    {
      if p < k {
        NoMatchInJunk(junk, line, p, e);
      } else if k <= e {
        ShiftMatches(junk, line, p - k, e - k);
      }
    }
    MatchNone(junk + line);
  }

  /** The chosen match of `line` is still the chosen one behind text with no `h`. */
  lemma ChosenShift(junk: String, line: String, p: nat, e: nat)
    requires 'h' !in junk
    requires IsChosenMatch(line, p, e)
    ensures IsChosenMatch(junk + line, p + |junk|, e + |junk|)
  {
    var s, k := junk + line, |junk|;
    ShiftMatches(junk, line, p, e);
    MatchesComeFromLine(junk, line);
    forall p': nat, e': nat | MatchesAt(s, p', e')
      ensures p + k < p' || (p + k == p' && e' <= e + k)
    {
      assert MatchesAt(line, p' - k, e' - k);
    }
  }
}

=== FILE: curated_roll_reader.dfy ===
/**
 * The curated-roll reader: turns a text feed of banshee-44 recommendation URLs,
 * one per line, into curated rolls. A line that is empty or does not match the
 * URL pattern yields no roll; it is dropped, never defaulted.
 */
module CuratedRollReader {
  import opened Wrappers
  import opened JsStrings
  import opened JsNumbers
  import opened BansheePattern

  /** A recommended roll: the weapon's item hash and the recommended perk hashes, in line order. */
  datatype CuratedRoll = CuratedRoll(itemHash: Num, recommendedPerks: seq<Num>)

  /** `tokens.map((s) => +s)`: one number per token, in token order. */
  function CoerceAll(tokens: seq<String>): (ns: seq<Num>)
    ensures |ns| == |tokens|
    ensures forall i :: 0 <= i < |tokens| ==> ns[i] == ToNumber(tokens[i])
  {
    seq(|tokens|, i requires 0 <= i < |tokens| => ToNumber(tokens[i]))
  }

  /**
   * One line of the feed. Empty lines and lines the pattern does not match
   * give None. Otherwise the item hash is capture 1 coerced to a number, and
   * the perks are capture 2 split on commas, each piece coerced: one perk more
   * than capture 2 has commas, so never none. The source also refuses a match
   * whose array does not have three entries; Match always has three, so that
   * refusal never fires and a roll comes out exactly when the pattern matches.
   */
  function ToCuratedRoll(line: String): (r: Option<CuratedRoll>)
    ensures line == [] ==> r == None
    ensures r.Some? <==> exists p: nat, e: nat :: MatchesAt(line, p, e)
    ensures r.Some? ==> exists p: nat, e: nat ::
      IsChosenMatch(line, p, e)
      && r.value.itemHash == ToNumber(line[p + |Prefix|..e])
      && r.value.recommendedPerks == CoerceAll(Split(Groups(line, p, e)[2], ','))
      && |r.value.recommendedPerks| == Occurrences(Groups(line, p, e)[2], ',') + 1
  {
    if |line| == 0 then None
    else
      match Match(line)
      case None => None
      case Some(groups) =>
        if |groups| != 3 then None
        else Some(CuratedRoll(ToNumber(groups[1]), CoerceAll(Split(groups[2], ','))))
  }

  /** `lines.map(toCuratedRoll)`: one result per line, in line order. */
  function ParseEach(lines: seq<String>): (rs: seq<Option<CuratedRoll>>)
    ensures |rs| == |lines|
    ensures forall i :: 0 <= i < |lines| ==> rs[i] == ToCuratedRoll(lines[i])
  {
    seq(|lines|, i requires 0 <= i < |lines| => ToCuratedRoll(lines[i]))
  }

  /** `.filter((cr) => cr !== null)`: the values that are present, in their order. */
  function Present<T>(xs: seq<Option<T>>): (ys: seq<T>)
    ensures |ys| <= |xs|
  {
    if xs == [] then []
    else
      var last := xs[|xs| - 1];
      Present(xs[..|xs| - 1]) + (if last.Some? then [last.value] else [])
  }

  /** The positions of `xs` that hold a value, in increasing order. */
  function SomeIndices<T>(xs: seq<Option<T>>): (idx: seq<nat>)
    ensures forall k :: 0 <= k < |idx| ==> idx[k] < |xs| && xs[idx[k]].Some?
    ensures forall i :: 0 <= i < |xs| && xs[i].Some? ==> i in idx
    ensures forall k, l :: 0 <= k < l < |idx| ==> idx[k] < idx[l]
  {
    if xs == [] then []
    else
      var n := |xs| - 1;
      var front := SomeIndices(xs[..n]);
      front + (if xs[n].Some? then [n] else [])
  }

  /**
   * The whole feed: split on `\n` (only: a `\r` stays in its line), parse
   * each line, keep the rolls. There is at most one roll per line.
   */
  function ToCuratedRolls(text: String): (rolls: seq<CuratedRoll>)
    ensures |rolls| <= Occurrences(text, '\n') + 1
  {
    Present(ParseEach(Split(text, '\n')))
  }

  /**
   * Filtering keeps exactly the values that are there, in their order: the
   * k-th kept value is the one at the k-th position holding a value.
   */
  lemma {:induction false} PresentInOrder<T>(xs: seq<Option<T>>)
    ensures |Present(xs)| == |SomeIndices(xs)|
    ensures forall k :: 0 <= k < |Present(xs)| ==> xs[SomeIndices(xs)[k]] == Some(Present(xs)[k])
  {
    if xs != [] {
      var n := |xs| - 1;
      PresentInOrder(xs[..n]);
      assert xs[..n] + [xs[n]] == xs;
      PresentLastStep(xs[..n], xs[n]);
    }
  }

  /** The step of PresentInOrder: a last position extends both sides alike. */
  lemma PresentLastStep<T>(front: seq<Option<T>>, last: Option<T>)
    requires |Present(front)| == |SomeIndices(front)|
    requires forall k :: 0 <= k < |Present(front)| ==> front[SomeIndices(front)[k]] == Some(Present(front)[k])
    ensures |Present(front + [last])| == |SomeIndices(front + [last])|
    ensures forall k :: 0 <= k < |Present(front + [last])| ==>
      (front + [last])[SomeIndices(front + [last])[k]] == Some(Present(front + [last])[k])
  {
    var xs := front + [last];
    PresentSnoc(front, last);
    var tail: seq<T> := if last.Some? then [last.value] else [];
    var tailIdx: seq<nat> := if last.Some? then [|front|] else [];
    forall k | 0 <= k < |Present(xs)|
      ensures xs[SomeIndices(xs)[k]] == Some(Present(xs)[k])
    {
      if k < |Present(front)| {
        assert front[SomeIndices(front)[k]] == Some(Present(front)[k]);
        assert SomeIndices(front)[k] < |front|;
      }
    }
  }

  /** Present and SomeIndices of a sequence with one more entry at its end. */
  lemma PresentSnoc<T>(front: seq<Option<T>>, last: Option<T>)
    ensures Present(front + [last]) == Present(front) + (if last.Some? then [last.value] else [])
    ensures SomeIndices(front + [last]) == SomeIndices(front) + (if last.Some? then [|front|] else [])
  {
    var xs := front + [last];
    assert xs[..|xs| - 1] == front;
  }

  /** Filtering distributes over concatenation. */
  lemma {:induction false} PresentConcat<T>(a: seq<Option<T>>, b: seq<Option<T>>)
    ensures Present(a + b) == Present(a) + Present(b)
  {
    if b != [] {
      var n := |b| - 1;
      assert (a + b)[..|a + b| - 1] == a + b[..n];
      PresentConcat(a, b[..n]);
    } else {
      assert a + b == a;
    }
  }

  /** Nothing present, nothing kept. */
  lemma PresentOfNothing<T>(xs: seq<Option<T>>)
    requires forall i :: 0 <= i < |xs| ==> xs[i].None?
    ensures Present(xs) == []
  {
    PresentInOrder(xs);
  }

  /**
   * The feed's rolls are those of its lines, in line order and without
   * duplicates removed: with `lines` the feed split on `\n` and `idx` the
   * lines that parse, in increasing order, the k-th roll is the roll of line
   * `idx[k]`, and every line that parses has its place in `idx`.
   */
  lemma RollsInLineOrder(text: String)
    ensures var lines := Split(text, '\n');
      var idx := SomeIndices(ParseEach(lines));
      && |ToCuratedRolls(text)| == |idx|
      && (forall k :: 0 <= k < |idx| ==> idx[k] < |lines| && ToCuratedRoll(lines[idx[k]]) == Some(ToCuratedRolls(text)[k]))
      && (forall i :: 0 <= i < |lines| && ToCuratedRoll(lines[i]).Some? ==> i in idx)
      && (forall k, l :: 0 <= k < l < |idx| ==> idx[k] < idx[l])
  {
    PresentInOrder(ParseEach(Split(text, '\n')));
  }

  /** Two feeds joined by a newline give the rolls of the first, then those of the second. */
  lemma RollsConcat(a: String, b: String)
    ensures ToCuratedRolls(a + ['\n'] + b) == ToCuratedRolls(a) + ToCuratedRolls(b)
  {
    SplitConcat(a, b, '\n');
    var la, lb := Split(a, '\n'), Split(b, '\n');
    ParseEachConcat(la, lb);
    PresentConcat(ParseEach(la), ParseEach(lb));
  }

  /** Parsing line by line distributes over concatenation. */
  lemma ParseEachConcat(la: seq<String>, lb: seq<String>)
    ensures ParseEach(la + lb) == ParseEach(la) + ParseEach(lb)
  {
    var l := la + lb;
    var pl, pa, pb := ParseEach(l), ParseEach(la), ParseEach(lb);
    assert |pl| == |pa + pb|;
    forall i | 0 <= i < |l|
      ensures pl[i] == (pa + pb)[i]
    {
      if i < |la| {
        assert l[i] == la[i];
      } else {
        assert l[i] == lb[i - |la|];
      }
    }
  }

  /** An empty feed, or one made only of newlines, has no rolls. */
  lemma RollsOfBlankFeed(text: String)
    requires forall i :: 0 <= i < |text| ==> text[i] == '\n'
    ensures ToCuratedRolls(text) == []
  {
    SplitOnlySeparators(text, '\n');
    PresentOfNothing(ParseEach(Split(text, '\n')));
  }

  /**
   * A line with the prefix, a capture 1 of two or more non-terminator
   * characters beginning with a digit, the separator, and perk text without
   * `&` or line terminators (then the line's end, or a line terminator such as
   * the `\r` of a CRLF feed, and anything after it) parses to capture 1 as the
   * item hash and the comma-separated perk tokens in order. A decimal hash is
   * its value; an empty perk token is 0.
   */
  lemma ParseWellFormedLine(h: String, t: String, rest: String)
    requires |h| >= 2 && IsDigit(h[0]) && NoLineTerminator(h)
    requires NoLineTerminator(t) && '&' !in t
    requires rest == [] || IsLineTerminator(rest[0])
    ensures var r := ToCuratedRoll(Prefix + h + Separator + t + rest);
      && r == Some(CuratedRoll(ToNumber(h), CoerceAll(Split(t, ','))))
      && |r.value.recommendedPerks| == Occurrences(t, ',') + 1
      && (AllDigits(h) && DecimalValue(h) <= MaxSafeInteger ==> r.value.itemHash == Finite(DecimalValue(h)))
      && (forall i :: 0 <= i < |Split(t, ',')| && Split(t, ',')[i] == [] ==> r.value.recommendedPerks[i] == Finite(0))
  {
    WellFormedRoll(h, t, rest);
    var tokens := Split(t, ',');
    var roll := CuratedRoll(ToNumber(h), CoerceAll(tokens));
    if AllDigits(h) && DecimalValue(h) <= MaxSafeInteger {
      DigitsToNumber(h);
    }
    DigitsToNumber([]);
    assert forall i :: 0 <= i < |tokens| && tokens[i] == [] ==> roll.recommendedPerks[i] == Finite(0);
  }

  /** The roll of a well-formed line, before its fields are read off. */
  lemma WellFormedRoll(h: String, t: String, rest: String)
    requires |h| >= 2 && IsDigit(h[0]) && NoLineTerminator(h)
    requires NoLineTerminator(t) && '&' !in t
    requires rest == [] || IsLineTerminator(rest[0])
    ensures ToCuratedRoll(Prefix + h + Separator + t + rest) == Some(CuratedRoll(ToNumber(h), CoerceAll(Split(t, ','))))
  {
    WellFormedMatch(h, t, rest);
  }

  /** The line a feed carries for a roll: a decimal item hash and comma-separated decimal perks. */
  function FormatLine(hash: nat, perks: seq<nat>): String
  {
    Prefix + DecimalString(hash) + Separator + Join(DecimalStrings(perks), ',')
  }

  function DecimalStrings(ns: seq<nat>): seq<String>
  {
    seq(|ns|, i requires 0 <= i < |ns| => DecimalString(ns[i]))
  }

  /** Every character of a join is the separator or a character of one of the pieces. */
  lemma {:induction false} JoinedCharacters(pieces: seq<String>, c: char, x: char)
    requires x in Join(pieces, c)
    ensures x == c || exists i :: 0 <= i < |pieces| && x in pieces[i]
  {
    if |pieces| > 1 {
      if x !in pieces[0] && x != c {
        JoinedCharacters(pieces[1..], c, x);
        var i :| 0 <= i < |pieces[1..]| && x in pieces[1..][i];
        assert x in pieces[i + 1];
      }
    }
  }

  /**
   * The perk text of a formatted line: digits and commas only, so no `&` and
   * no line terminator, and it splits back into the decimal strings.
   */
  lemma FormattedPerks(ns: seq<nat>)
    requires |ns| >= 1
    ensures var t := Join(DecimalStrings(ns), ',');
      NoLineTerminator(t) && '&' !in t && Split(t, ',') == DecimalStrings(ns)
  {
    var ds := DecimalStrings(ns);
    var t := Join(ds, ',');
    forall i | 0 <= i < |t|
      ensures IsDigit(t[i]) || t[i] == ','
    {
      JoinedCharacters(ds, ',', t[i]);
      if t[i] != ',' {
        var k, j :| 0 <= k < |ds| && 0 <= j < |ds[k]| && t[i] == ds[k][j];
      }
    }
    forall k | 0 <= k < |ds|
      ensures ',' !in ds[k]
    {
      assert AllDigits(ds[k]);
    }
    SplitJoin(ds, ',');
  }

  /** Coercing decimal renderings of safe integers gives those integers back. */
  lemma CoerceDecimals(ns: seq<nat>)
    requires forall i :: 0 <= i < |ns| ==> ns[i] <= MaxSafeInteger
    ensures CoerceAll(DecimalStrings(ns)) == seq(|ns|, i requires 0 <= i < |ns| => Finite(ns[i]))
  {
    forall i | 0 <= i < |ns|
      ensures ToNumber(DecimalStrings(ns)[i]) == Finite(ns[i])
    {
      DecimalToNumber(ns[i]);
    }
  }

  /**
   * A roll written in the feed's format reads back as that roll, as long as
   * the item hash has at least two digits and every number is an exact double.
   */
  lemma FormatRoundTrip(hash: nat, perks: seq<nat>)
    requires 10 <= hash <= MaxSafeInteger
    requires |perks| >= 1 && forall i :: 0 <= i < |perks| ==> perks[i] <= MaxSafeInteger
    ensures var r := ToCuratedRoll(FormatLine(hash, perks));
      && r.Some? && r.value.itemHash == Finite(hash)
      && |r.value.recommendedPerks| == |perks|
      && forall i :: 0 <= i < |perks| ==> r.value.recommendedPerks[i] == Finite(perks[i])
  {
    var h, t := DecimalString(hash), Join(DecimalStrings(perks), ',');
    FormattedPerks(perks);
    assert NoLineTerminator(h);
    WellFormedRoll(h, t, []);
    assert FormatLine(hash, perks) == Prefix + h + Separator + t + [];
    CoerceDecimals(perks);
    DecimalToNumber(hash);
  }

  /** A roll whose item hash is a single digit is written in a form the reader refuses. */
  lemma FormatSingleDigitRejected(hash: nat, perks: seq<nat>)
    requires hash < 10
    ensures ToCuratedRoll(FormatLine(hash, perks)) == None
  {
    var h, t := DecimalString(hash), Join(DecimalStrings(perks), ',');
    forall i | 0 <= i < |t|
      ensures t[i] != '&'
    {
      JoinedCharacters(DecimalStrings(perks), ',', t[i]);
    }
    assert h == [h[0]];
    SingleDigitRejected(h[0], t);
    assert FormatLine(hash, perks) == Prefix + [h[0]] + Separator + t;
  }

  /** A feed with no newline is one line: its roll if it has one, else nothing. */
  lemma RollsOfOneLine(line: String)
    requires '\n' !in line
    ensures ToCuratedRolls(line) == (if ToCuratedRoll(line).Some? then [ToCuratedRoll(line).value] else [])
  {
    SplitWithoutSeparator(line, '\n');
    assert ParseEach([line]) == [ToCuratedRoll(line)];
    assert [ToCuratedRoll(line)][..0] == [];
  }

  /**
   * The line https://banshee-44.com/?weapon=1234&socketEntries=10,20,30 reads
   * as item hash 1234 with perks 10, 20 and 30.
   */
  lemma ExampleLine()
    ensures ToCuratedRoll(Prefix + "1234" + Separator + "10,20,30")
         == Some(CuratedRoll(Finite(1234), [Finite(10), Finite(20), Finite(30)]))
  {
    ParseWellFormedLine("1234", "10,20,30", []);
    assert Prefix + "1234" + Separator + "10,20,30" + [] == Prefix + "1234" + Separator + "10,20,30";
    ExampleHash();
    ExamplePerks();
  }

  /** The item hash of ExampleLine. */
  lemma ExampleHash()
    ensures ToNumber("1234") == Finite(1234)
  {
    assert DecimalString(1234) == "1234";
    DecimalToNumber(1234);
  }

  /** The perks of ExampleLine. */
  lemma ExamplePerks()
    ensures CoerceAll(Split("10,20,30", ',')) == [Finite(10), Finite(20), Finite(30)]
  {
    ExampleSplit();
    ExamplePerkTokens();
    CoerceThree("10", "20", "30");
  }

  /** Coercing three tokens gives their three numbers, in order; kept as a lemma only to keep ExamplePerks's proof cheap. */
  lemma CoerceThree(a: String, b: String, c: String)
    ensures CoerceAll([a, b, c]) == [ToNumber(a), ToNumber(b), ToNumber(c)]
  {
  }

  /** The perk text of ExampleLine splits into its three tokens. */
  lemma ExampleSplit()
    ensures Split("10,20,30", ',') == ["10", "20", "30"]
  {
    ExamplePerkText();
    SplitJoin(["10", "20", "30"], ',');
  }

  /** The perk tokens of ExampleLine, one by one. */
  lemma ExamplePerkTokens()
    ensures ToNumber("10") == Finite(10) && ToNumber("20") == Finite(20) && ToNumber("30") == Finite(30)
  {
    TwoDigitToken('1', '0');
    TwoDigitToken('2', '0');
    TwoDigitToken('3', '0');
  }

  /** A two-digit token coerces to its value. */
  lemma TwoDigitToken(a: char, b: char)
    requires IsDigit(a) && IsDigit(b)
    ensures ToNumber([a, b]) == Finite(10 * DigitValue(a) + DigitValue(b))
  {
    assert [a, b][..1] == [a] && [a][..0] == [];
    assert DecimalValue([a]) == DigitValue(a);
    assert DecimalValue([a, b]) == 10 * DigitValue(a) + DigitValue(b);
    DigitsToNumber([a, b]);
  }

  /**
   * The feed
   *   https://banshee-44.com/?weapon=1&socketEntries=2,3
   *   (an empty line)
   *   bad-line
   *   https://banshee-44.com/?weapon=4&socketEntries=5
   * has no rolls: the URLs have one-digit item hashes, which `\d.+` refuses,
   * and the other two lines are not URLs.
   */
  lemma ExampleFeed()
    ensures var l1, l4 := Prefix + "1" + Separator + "2,3", Prefix + "4" + Separator + "5";
      ToCuratedRolls(l1 + "\n" + "\n" + "bad-line" + "\n" + l4) == []
  {
    var l1 := Prefix + "1" + Separator + "2,3";
    var l3 := "bad-line";
    var l4 := Prefix + "4" + Separator + "5";
    ExampleFeedLines();
    RollsConcat(l3, l4);
    RollsConcat([], l3 + ['\n'] + l4);
    RollsConcat(l1, [] + ['\n'] + (l3 + ['\n'] + l4));
    FourLines(l1, l3, l4, '\n');
  }

  /** The perk text of ExampleLine is the join of its three tokens. */
  lemma ExamplePerkText()
    ensures Join(["10", "20", "30"], ',') == "10,20,30"
  {
    var ds := ["10", "20", "30"];
    assert ds[1..] == ["20", "30"] && ds[1..][1..] == ["30"];
    var tail := "20" + [','] + "30";
    assert Join(ds[1..], ',') == tail;
    assert "10" + [','] + tail == "10,20,30";
  }

  /** Each line of ExampleFeed on its own has no roll. */
  lemma ExampleFeedLines()
    ensures ToCuratedRolls(Prefix + "1" + Separator + "2,3") == []
    ensures ToCuratedRolls([]) == []
    ensures ToCuratedRolls("bad-line") == []
    ensures ToCuratedRolls(Prefix + "4" + Separator + "5") == []
  {
    SingleDigitLineHasNoRoll('1', "2,3");
    SingleDigitLineHasNoRoll('4', "5");
    RollsOfBlankFeed([]);
    ShortLineHasNoRoll("bad-line");
  }

  /** The feed of ExampleFeed, grouped the way RollsConcat takes it apart; kept as a lemma only to keep ExampleFeed's proof cheap. */
  lemma FourLines(l1: String, l3: String, l4: String, c: char)
    ensures l1 + [c] + [c] + l3 + [c] + l4 == l1 + [c] + ([] + [c] + (l3 + [c] + l4))
  {
  }

  /** A one-digit-hash URL line, as a feed of its own, has no roll. */
  lemma SingleDigitLineHasNoRoll(d: char, t: String)
    requires IsDigit(d) && '&' !in t && '\n' !in t
    ensures ToCuratedRolls(Prefix + [d] + Separator + t) == []
  {
    assert '\n' !in Prefix && '\n' !in Separator;
    SingleDigitRejected(d, t);
    RollsOfOneLine(Prefix + [d] + Separator + t);
  }

  /** A line shorter than the two literals and a two-character hash has no roll. */
  lemma ShortLineHasNoRoll(line: String)
    requires |line| < |Prefix| + 2 + |Separator| && '\n' !in line
    ensures ToCuratedRolls(line) == []
  {
    RollsOfOneLine(line);
  }
}

=== FILE: js_numbers.dfy ===
/**
 * JavaScript's unary `+` on a string (the abstract operation ToNumber), modelled
 * only as far as the curated-roll reader needs it. Blank text, plain decimal
 * digit strings within the exactly representable range, and text whose first
 * character can never begin a numeric literal are given their JavaScript
 * values; every other string maps to `Unmodelled`, which stands for "whatever
 * the full IEEE-754 grammar gives" and is deliberately not guessed at.
 */
module JsNumbers {
  import opened JsStrings

  /** The result of a coercion: an integral finite number, NaN, or a case outside this model. */
  datatype Num = Finite(value: int) | NaN | Unmodelled(text: String)

  /** Number.MAX_SAFE_INTEGER, 2^53 - 1: every integer up to it is an exact double. */
  const MaxSafeInteger: nat := 0x1F_FFFF_FFFF_FFFF

  predicate IsDigit(c: char) {
    '0' <= c <= '9'
  }

  predicate AllDigits(s: String) {
    forall i :: 0 <= i < |s| ==> IsDigit(s[i])
  }

  function DigitValue(c: char): (d: nat)
    requires IsDigit(c)
    ensures d < 10
  {
    (c as int) - ('0' as int)
  }

  function DigitChar(d: nat): (c: char)
    requires d < 10
    ensures IsDigit(c) && DigitValue(c) == d
  {
    (('0' as int) + d) as char
  }

  /** The value of a string of decimal digits, most significant digit first. */
  function DecimalValue(s: String): nat
    requires AllDigits(s)
  {
    if s == [] then 0 else 10 * DecimalValue(s[..|s| - 1]) + DigitValue(s[|s| - 1])
  }

  /** The shortest decimal rendering of `n`, without leading zeros. */
  function DecimalString(n: nat): (s: String)
    ensures AllDigits(s) && s != []
    ensures |s| >= 2 <==> n >= 10
    ensures DecimalValue(s) == n
  {
    if n < 10 then [DigitChar(n)]
    else
      var front := DecimalString(n / 10);
      var s := front + [DigitChar(n % 10)];
      assert s[..|s| - 1] == front;
      s
  }

  /** ECMAScript WhiteSpace (the Zs category included) and LineTerminator. */
  predicate IsJsSpace(c: char) {
    var u := c as int;
    u == 0x09 || u == 0x0B || u == 0x0C || u == 0x20 || u == 0xA0 || u == 0x1680
    || (0x2000 <= u <= 0x200A) || u == 0x202F || u == 0x205F || u == 0x3000 || u == 0xFEFF
    || IsLineTerminator(c)
  }

  /** Text that ToNumber trims away completely; the empty string is blank. */
  predicate IsBlank(s: String) {
    forall i :: 0 <= i < |s| ==> IsJsSpace(s[i])
  }

  /**
   * The characters a StringNumericLiteral can begin with once white space is
   * trimmed: a digit, a decimal point, a sign, or the `I` of `Infinity`.
   */
  predicate MayStartNumericLiteral(c: char) {
    IsDigit(c) || c == '.' || c == '+' || c == '-' || c == 'I'
  }

  /**
   * Unary `+` applied to a string. A `Finite` result of the model is a safe
   * non-negative integer, and NaN comes only from text whose first character
   * is neither white space nor a possible start of a numeric literal.
   */
  function ToNumber(s: String): (r: Num)
    ensures r.Finite? ==> 0 <= r.value <= MaxSafeInteger
    ensures r.NaN? ==> s != [] && !IsJsSpace(s[0]) && !MayStartNumericLiteral(s[0])
    ensures IsBlank(s) ==> r == Finite(0)
  {
    if IsBlank(s) then Finite(0)
    else if AllDigits(s) && DecimalValue(s) <= MaxSafeInteger then Finite(DecimalValue(s))
    else if !IsJsSpace(s[0]) && !MayStartNumericLiteral(s[0]) then NaN
    else Unmodelled(s)
  }

  /** A decimal digit string within the safe range coerces to its value; `+""` is 0. */
  lemma DigitsToNumber(s: String)
    requires AllDigits(s) && DecimalValue(s) <= MaxSafeInteger
    ensures ToNumber(s) == Finite(DecimalValue(s))
  {
    if s != [] {
      assert !IsJsSpace(s[0]);
    }
  }

  /** Rendering a safe integer in decimal and coercing it back gives the integer. */
  lemma DecimalToNumber(n: nat)
    requires n <= MaxSafeInteger
    ensures ToNumber(DecimalString(n)) == Finite(n)
  {
    DigitsToNumber(DecimalString(n));
  }

  /** A token that does not begin like a number (a letter other than `I`, say) coerces to NaN. */
  lemma NonNumericToNaN(s: String)
    requires s != [] && !IsJsSpace(s[0]) && !MayStartNumericLiteral(s[0])
    ensures ToNumber(s) == NaN
  {
    assert !IsBlank(s);
    assert !AllDigits(s);
  }
}

=== FILE: js_strings.dfy ===
/**
 * The pieces of JavaScript string behaviour the curated-roll reader relies on:
 * `String.prototype.split` with a one-character separator (and its inverse,
 * `Array.prototype.join`), and the LineTerminator class of ECMAScript, which the
 * regular-expression atom `.` refuses to match.
 */
module JsStrings {

  type String = seq<char>

  /** ECMAScript LineTerminator: LF, CR, LINE SEPARATOR and PARAGRAPH SEPARATOR. */
  predicate IsLineTerminator(c: char) {
    c == '\n' || c == '\r' || c == '\U{2028}' || c == '\U{2029}'
  }

  /** Every character of `s` is matched by the regular-expression atom `.`. */
  predicate NoLineTerminator(s: String) {
    forall i :: 0 <= i < |s| ==> !IsLineTerminator(s[i])
  }

  /** How many times `c` occurs in `s`. */
  function Occurrences(s: String, c: char): nat
  {
    if s == [] then 0 else (if s[0] == c then 1 else 0) + Occurrences(s[1..], c)
  }

  /**
   * `s.split(c)`: the pieces of `s` between occurrences of `c`, in order. There is
   * always one piece more than there are separators, and no piece holds `c`;
   * `"".split(c)` is `[""]`.
   */
  function Split(s: String, c: char): (pieces: seq<String>)
    ensures |pieces| == Occurrences(s, c) + 1
    ensures forall i :: 0 <= i < |pieces| ==> c !in pieces[i]
  {
    if s == [] then [[]]
    else
      var rest := Split(s[1..], c);
      if s[0] == c then [[]] + rest
      else [[s[0]] + rest[0]] + rest[1..]
  }

  /** `pieces.join(c)`: the pieces with `c` between each neighbouring pair. */
  function Join(pieces: seq<String>, c: char): String
  {
    if pieces == [] then []
    else if |pieces| == 1 then pieces[0]
    else pieces[0] + [c] + Join(pieces[1..], c)
  }

  /** Joining the pieces of a split gives back the text that was split. */
  lemma {:induction false} JoinSplit(s: String, c: char)
    ensures Join(Split(s, c), c) == s
  {
    if s != [] {
      var rest := Split(s[1..], c);
      JoinSplit(s[1..], c);
      SplitStep(s, c);
      if s[0] == c {
        JoinStep([], rest, c);
      } else if |rest| == 1 {
        assert Split(s, c) == [[s[0]] + rest[0]];
      } else {
        JoinStep([s[0]] + rest[0], rest[1..], c);
        JoinStep(rest[0], rest[1..], c);
        assert [rest[0]] + rest[1..] == rest;
      }
    }
  }

  /** Join puts the separator after a first piece that has followers. */
  lemma JoinStep(first: String, rest: seq<String>, c: char)
    requires rest != []
    ensures Join([first] + rest, c) == first + [c] + Join(rest, c)
  {
    assert ([first] + rest)[1..] == rest;
  }

  /** Text without the separator splits into the single piece it is. */
  lemma {:induction false} SplitWithoutSeparator(s: String, c: char)
    requires c !in s
    ensures Split(s, c) == [s]
  {
    if s != [] {
      assert c !in s[1..];
      SplitWithoutSeparator(s[1..], c);
      assert [s[0]] + s[1..] == s;
    }
  }

  /** A separator between `a` and `b` splits the pieces of `a` from those of `b`. */
  lemma {:induction false} SplitConcat(a: String, b: String, c: char)
    ensures Split(a + [c] + b, c) == Split(a, c) + Split(b, c)
  {
    if a == [] {
      assert a + [c] + b == [c] + b;
      SplitCons(c, b, c);
    } else {
      assert a == [a[0]] + a[1..];
      SplitConcat(a[1..], b, c);
      SplitConcatStep(a[0], a[1..], b, c);
    }
  }

  /** The step of SplitConcat: one more character in front of `a`. */
  lemma SplitConcatStep(x: char, a: String, b: String, c: char)
    requires Split(a + [c] + b, c) == Split(a, c) + Split(b, c)
    ensures Split([x] + a + [c] + b, c) == Split([x] + a, c) + Split(b, c)
  {
    var r := a + [c] + b;
    Regroup(x, a, c, b);
    var front, back := Split(a, c), Split(b, c);
    SplitCons(x, r, c);
    SplitCons(x, a, c);
    if x == c {
      assert [[]] + (front + back) == ([[]] + front) + back;
    } else {
      JoinFirstPiece(x, front, back);
    }
  }

  /** The text of SplitConcat, regrouped around its first character; kept as a lemma only to keep SplitConcatStep's proof cheap. */
  lemma Regroup(x: char, a: String, c: char, b: String)
    ensures [x] + a + [c] + b == [x] + (a + [c] + b)
  {
  }

  /** How Split treats the first character: it either ends the first piece or extends it. */
  lemma SplitCons(x: char, r: String, c: char)
    ensures x == c ==> Split([x] + r, c) == [[]] + Split(r, c)
    ensures x != c ==> Split([x] + r, c) == [[x] + Split(r, c)[0]] + Split(r, c)[1..]
  {
    assert ([x] + r)[1..] == r;
  }

  /** The same, for a text given whole. */
  lemma SplitStep(s: String, c: char)
    requires s != []
    ensures s[0] == c ==> Split(s, c) == [[]] + Split(s[1..], c)
    ensures s[0] != c ==> Split(s, c) == [[s[0]] + Split(s[1..], c)[0]] + Split(s[1..], c)[1..]
  {
  }

  /** Prepending a character to the first piece commutes with appending further pieces. */
  lemma JoinFirstPiece(x: char, left: seq<String>, right: seq<String>)
    requires |left| >= 1
    ensures [[x] + (left + right)[0]] + (left + right)[1..] == ([[x] + left[0]] + left[1..]) + right
  {
    assert (left + right)[0] == left[0];
    assert (left + right)[1..] == left[1..] + right;
  }

  /** Splitting a join of separator-free pieces gives back those pieces. */
  lemma {:induction false} SplitJoin(pieces: seq<String>, c: char)
    requires |pieces| >= 1
    requires forall i :: 0 <= i < |pieces| ==> c !in pieces[i]
    ensures Split(Join(pieces, c), c) == pieces
  {
    SplitWithoutSeparator(pieces[0], c);
    if |pieces| > 1 {
      SplitJoin(pieces[1..], c);
      SplitConcat(pieces[0], Join(pieces[1..], c), c);
      assert [pieces[0]] + pieces[1..] == pieces;
    }
  }

  /** Text made only of separators splits into empty pieces. */
  lemma {:induction false} SplitOnlySeparators(s: String, c: char)
    requires forall i :: 0 <= i < |s| ==> s[i] == c
    ensures forall i :: 0 <= i < |Split(s, c)| ==> Split(s, c)[i] == []
  {
    if s != [] {
      SplitOnlySeparators(s[1..], c);
      assert Split(s, c) == [[]] + Split(s[1..], c);
    }
  }
}

=== FILE: wrappers.dfy ===
/** The optional value used for JavaScript's `T | null` results. */
module Wrappers {

  datatype Option<+T> = None | Some(value: T)
}
